=== FILE: README.md ===
# QuickSight embedding Lambda handler — Dafny model

This project models `lambda_handler` of `quicksight.py`, an AWS Lambda
behind API Gateway that embeds QuickSight dashboards. One invocation:

1. reads the account id (the fifth `:`-field of the function's own ARN) and
   the environment variables `DashboardIdList` (spaces removed, split at
   commas), `DashboardNameList` (split at commas) and `DashboardRegion`;
2. resolves the mode from the query string: none or no `mode` key gives
   `dynamic`, `static` and `getUrl` select themselves, anything else gives
   `unsupportedValue`;
3. in `dynamic` and `getUrl` asks the embed-URL service
   (`generate_embed_url_for_anonymous_user`) for an anonymous 60-minute
   session in the `default` namespace, authorising one dashboard ARN
   `arn:aws:quicksight:<region>:<account>:dashboard/<id>` per id, with the
   first id as the initial dashboard; in `static` it derives the API gateway
   URL from the `Host` header and the request path;
4. for `dynamic` and `static` fills the HTML template's placeholders and
   returns it as `text/html`; for `getUrl` returns the service's answer as
   JSON; for `unsupportedValue` returns the untouched empty object `{}`;
5. turns every exception into one 400 response whose body is the JSON string
   `"Error: " + message`.

The model is the total function `Handler.Handle(event, runtime)` returning
the response together with the list of requests sent to the service. The
environment, the three content files, the service, Python's `str` of a list
and Python's processing of a `re.sub` replacement that holds a backslash
(`Template.Escapes`) are fields of `Runtime`; exceptions are `Errors.Fault`
values carried by `Wrappers.Result`.

`re.sub` inserts a replacement without a backslash literally; one with a
backslash is first expanded (escapes, group references), which may raise
`re.error` before the text is scanned. `Template.ExpandReplacement` uses a
backslash-free value verbatim and otherwise asks the runtime's `escapes`;
the page is then rendered with the expanded values, and a rejected
replacement ends in the catch-all like any other exception.

Modules: `Wrappers` (Option, Result), `Text` (Python `str.split`,
`sep.join` and literal `re.sub`), `Errors` (exceptions and their messages),
`JsonValues` (JSON documents), `Embed` (ARN list and service request),
`Settings` (account id and environment), `Template` (placeholder
substitution), `Handler` (mode, dispatch, responses).

`re.sub` with a literal pattern is `Text.ReplaceAll`: a left-to-right scan
that replaces each occurrence and resumes after it. It is characterised
against `Text.SplitOn`, the model of `str.split`: the output is the
separator-free pieces of the split, glued with the replacement instead of
the token.

`re.sub` replaces every occurrence of a token, and so does
`Text.ReplaceAll`. A mode value other than `static` or `getUrl` answers 200
with the untouched empty object `{}`
(`Handler.UnsupportedModeAnswersEmptyObject`), and
`Handler.ExplicitDynamicIsUnsupported` records that even `mode=dynamic`
lands there, although the comment at quicksight.py:37 lists dynamic as a
mode value.

## Model

| member | source | states |
|---|---|---|
| Handler.ResolveMode | quicksight.py:38-48 | a null query map or one without `mode` gives dynamic; `mode` equal to `static` or `getUrl` gives that mode; any other value gives unsupportedValue, each as an if-and-only-if; a missing `queryStringParameters` key is a KeyError |
| Handler.ModeNameSelects | quicksight.py:42-44 | a query string naming static or getUrl resolves to that mode |
| Handler.ExplicitDynamicIsUnsupported | quicksight.py:37-46 | `mode=dynamic`, named explicitly, resolves to unsupportedValue: only static and getUrl are recognised |
| Handler.ApiGatewayUrl | quicksight.py:60-63 | null headers, or present headers with a null request context, give the fixed marker URL; otherwise the URL is Host followed by path; missing keys are KeyErrors in evaluation order |
| Handler.ApiGatewayUrlDerivable | quicksight.py:60-63 | the URL is available exactly when the headers are null, or the headers are present and the request context is null, or the headers carry Host and the request context carries path; a URL built from the request starts with its Host header |
| Embed.DashboardArn | quicksight.py:10 | `arn:aws:quicksight:<region>:<account>:dashboard/<id>`; `Embed.DashboardArnFields` shows it splits back into its fields |
| Embed.ArnList | quicksight.py:10 | one ARN per dashboard id, same length, element i is the ARN of id i |
| Embed.BuildRequest | quicksight.py:15-21 | succeeds exactly when there is an id; then account, namespace `default`, 60-minute lifetime, first id as initial dashboard, and the ARN of every id in order; IndexError otherwise |
| Embed.DashboardArnFields | quicksight.py:10 | a dashboard ARN splits at `:` back into arn, aws, quicksight, region, account and `dashboard/<id>` |
| Embed.ExampleRequest | quicksight.py:10-21 | ids d1, d2 in us-east-1 for account 123456789012 give the two expected ARNs and initial dashboard d1 |
| Settings.AccountId | quicksight.py:25 | succeeds exactly when the ARN has at least four colons, yields a colon-free field, and is IndexError otherwise |
| Settings.AccountIdOfFunctionArn | quicksight.py:25 | the account id read from a Lambda function ARN is the account that ARN names |
| Settings.EnvLookup | quicksight.py:28-30 | an environment variable's value when set, KeyError naming it otherwise |
| Settings.ParseIds | quicksight.py:28 | the dashboard id list is never empty |
| Settings.ParseIdsRoundTrip | quicksight.py:28 | no id contains a space or a comma, and joining the ids with commas gives the raw list with every space deleted |
| Settings.ParseNames | quicksight.py:29 | the name list is never empty, no name contains a comma, and joining the names with commas gives the raw list |
| Settings.LoadConfig | quicksight.py:25-30 | succeeds exactly when the ARN has an account field and all three variables are set; otherwise the first missing piece decides the error (bad ARN, then each variable in order); on success the account is the ARN's, the region is the variable's value, the ids are non-empty, free of spaces and commas and join back to the raw list without spaces, and the names are comma-free and join back to the raw list |
| Text.SplitOn | quicksight.py:28-29 | `str.split` yields at least one piece, and joining the pieces with the separator gives the input back |
| Text.SplitOnPiecesAvoidSeparator | quicksight.py:28-29 | no piece of a split contains the separator |
| Text.SplitOnJoin | quicksight.py:28-29 | splitting the join of separator-free parts gives the parts back |
| Text.SplitOnCount | quicksight.py:25 | splitting at a character gives one more piece than the character's occurrences |
| Text.Without | quicksight.py:28 | deleting a character leaves no such character and every other character with its multiplicity |
| Text.DeleteCharacter | quicksight.py:28 | `re.sub(' ', '', s)` is exactly the deletion of every space |
| Text.ReplaceAll | quicksight.py:76-87 | literal `re.sub`: a left-to-right scan replacing each occurrence and resuming after it; characterised by `Text.ReplaceAllGluesPieces` |
| Text.ReplaceAllGluesPieces | quicksight.py:76-87 | `re.sub` with a literal token replaces every occurrence the left-to-right scan finds: the output is the token-free pieces of the split glued with the replacement |
| Text.ReplaceAllAbsent | quicksight.py:76-87 | a token that does not occur leaves the text unchanged |
| Text.ReplaceAllAtCleanCut | quicksight.py:76-87 | replacing a placeholder distributes over a cut before `<` or after `>` |
| Text.ReplaceAllKeepsOtherPlaceholder | quicksight.py:76-87 | replacing one placeholder leaves every occurrence of a different placeholder verbatim |
| Template.ExpandReplacement | quicksight.py:76-87 | a replacement without a backslash is inserted as it is; one with a backslash is what Python's escape processing makes of it, and its `re.error` becomes the fault |
| Template.Render | quicksight.py:76-87 | the substitutions applied one `re.sub` at a time in order: ids, names, logo, then embed URL (dynamic) or gateway URL (static), as `DynamicSubstitutions` and `StaticSubstitutions` list them; characterised by `Template.RenderFillsPlaceholder`, `Template.RenderKeepsOtherPlaceholder` and `Template.RenderPlainText` |
| Template.RenderFillsPlaceholder | quicksight.py:76-87 | the placeholder of a substitution, alone in `<`-free text and not named by an earlier substitution, becomes that substitution's value |
| Template.DynamicFillsPlaceholders | quicksight.py:76-84 | in dynamic mode `<DashboardIdList>`, `<DashboardNameList>`, `<LogoFileBase64>` and `<QSEmbedUrl>` become the ids, the names, the logo and the embed URL respectively |
| Template.StaticFillsPlaceholders | quicksight.py:76-87 | in static mode `<DashboardIdList>`, `<DashboardNameList>`, `<LogoFileBase64>` and `<QSApiGatewayUrl>` become the ids, the names, the logo and the gateway URL respectively |
| Text.ReplaceAllPlainAround | quicksight.py:76-87 | a placeholder that is the only `<` in the text is replaced by the value and the text around it is kept |
| Template.RenderKeepsOtherPlaceholder | quicksight.py:76-87 | a placeholder none of the substitutions names survives the whole sequence of substitutions |
| Template.RenderPlainText | quicksight.py:76-87 | text without `<` is returned unchanged by the substitutions |
| Template.DynamicKeepsApiGatewayToken | quicksight.py:76-84 | the dynamic substitutions never touch `<QSApiGatewayUrl>` |
| Template.StaticKeepsEmbedUrlToken | quicksight.py:76-87 | the static substitutions never touch `<QSEmbedUrl>` |
| Errors.Message | quicksight.py:110 | `str(e)` of each exception: the quoted key of a KeyError, `list index out of range`, `[Errno 2] No such file or directory: '<path>'`, the service's own message, and the message of a rejected replacement |
| Handler.ErrorResponse | quicksight.py:106-111 | the catch-all is a 400 with plain-text headers and a JSON string starting with `Error: ` |
| Handler.PageResponse | quicksight.py:90-93 | a rendered page is a 200 response with the HTML headers and the page as body; a failure is the catch-all 400 for that fault |
| Handler.JsonResponse | quicksight.py:99-103 | a JSON answer is a 200 response with plain-text and CORS headers and the document as body |
| Handler.Prepare | quicksight.py:25-48 | configuration errors come before mode errors; otherwise the configuration and the resolved mode |
| Handler.Fetch | quicksight.py:5-22 | at most one request; with a non-empty id list exactly the built request; a successful service answer is returned as it is, and a service failure becomes a service fault carrying its message |
| Handler.Logo | quicksight.py:72-73 | the logo text when the file opens, a missing-file error naming `content/Logo.png` otherwise |
| Handler.EmbedUrlOf | quicksight.py:84 | succeeds exactly when the answer has a string `EmbedUrl`, and is then that string; a missing key is a KeyError naming `EmbedUrl` |
| Handler.SharedTexts | quicksight.py:76-80 | the id list text, the name list text and the logo are expanded in that order, the first rejected one is the fault, and backslash-free values come back unchanged |
| Handler.DynamicPage | quicksight.py:67-84 | a dynamic page exists exactly when the logo is there, the three shared replacements are accepted, the answer has a string `EmbedUrl` and its replacement is accepted; the errors come in that order; the page is the template rendered by the dynamic substitutions of the expanded values |
| Handler.StaticPage | quicksight.py:58-87 | a static page exists exactly when the gateway URL is derivable, the logo is there and all four replacements are accepted; the errors come in that order; the page is the template rendered by the static substitutions of the expanded values |
| Handler.Dispatch | quicksight.py:55-111 | every branch gives a 200 or the catch-all 400 and sends at most one request; a missing dynamic or static template is the catch-all naming that file; a failed service call is the catch-all for its fault; the dynamic and static pages, the getUrl answer and the unsupported `{}` become their responses, so a page failure is the catch-all for the page's own fault |
| Handler.Handle | quicksight.py:3-111 | the handler always answers 200 or the catch-all 400, and sends at most one service request; a configuration or mode fault is the catch-all for exactly that fault with no request; otherwise the answer is the dispatch for the loaded configuration and mode |
| Handler.MissingRegionReported | quicksight.py:25-30 | with a valid ARN and both lists set but no `DashboardRegion`, the answer is 400 `Error: 'DashboardRegion'` and no service call |
| Handler.MalformedFunctionArn | quicksight.py:25 | an ARN with fewer than five fields gives 400 `Error: list index out of range` and no service call |
| Handler.ServiceCalledExactlyInEmbedModes | quicksight.py:55-65 | the service is called if and only if the mode is getUrl, or dynamic with the template open, and then with the request built from the configuration |
| Handler.UnsupportedModeAnswersEmptyObject | quicksight.py:39-103 | an unsupported mode answers 200 with the empty JSON object and calls no service |
| Handler.DynamicModeAnswersPage | quicksight.py:55-93 | dynamic mode sends the request built from the configuration and answers 200 exactly when the template is there, the service succeeds and the dynamic page can be built, with that page as HTML; with backslash-free values the page is the template rendered by the dynamic substitutions of the ids, names, logo and embed URL themselves |
| Handler.StaticModeAnswersPage | quicksight.py:58-93 | static mode calls no service and answers 200 exactly when the template is there and the static page can be built, with that page as HTML; with backslash-free values the page is the template rendered by the static substitutions of the ids, names, logo and gateway URL themselves |
| Handler.GetUrlAnswersJson | quicksight.py:64-103 | getUrl mode sends the request built from the configuration and answers 200 exactly when the service succeeds, with the service's answer as the JSON body |
| Handler.ServiceFaultReported | quicksight.py:106-111 | a service fault in getUrl or dynamic mode becomes 400 with `Error: ` followed by the service's message |
| Handler.DynamicModeKeepsApiGatewayToken | quicksight.py:82-87 | a `<QSApiGatewayUrl>` in the dynamic template is still in the returned page |
| Handler.StaticModeKeepsEmbedUrlToken | quicksight.py:82-87 | a `<QSEmbedUrl>` in the static template is still in the returned page |

## Left out

- The boto3 client and the network call: the service is the function `Runtime.service`, which answers with a JSON object or fails with a message.
- Opening and reading `content/DynamicSample.html`, `content/StaticSample.html` and `content/Logo.png`: their contents are inputs; a file that cannot be opened is `None`, and every I/O failure is reported as file-not-found.
- Base64 encoding of the logo and the `str(bytes)[2:-1]` slicing: the logo is given as its base64 text.
- `str(list)` of the id and name lists: it is the uninterpreted function `Runtime.listRepr`.
- `json.dumps`: a JSON body is kept as the `Json` value it encodes.
- `os.environ` is an explicit map; a missing variable is a KeyError, as in the source.
- Python's expansion of a replacement that holds a backslash (`\\`, `\n`, `\g<0>`, octal escapes, rejected escapes and group references): it is the runtime field `escapes` (of type `Template.Escapes`), asked with the pattern and the raw value; a backslash-free replacement is modelled exactly.
- Errors.Message: the text for a non-string `EmbedUrl` is not Python's TypeError wording; the other messages follow Python's `str` of the exception.
- Handler.Event: query-string, header and request-context values are modelled as strings only; nested request-context values other than `path` play no part.
- Template substitution order independence: not stated, since a replacement value could in principle contain another token.
- Rendering being the same for the same inputs: every member is a pure function, so this holds by construction and is not stated.
- Concurrency, timeouts and the 60-minute expiry of the URL: enforced outside the handler.

=== FILE: embed.dfy ===
/**
 * The request `getQuickSightDashboardUrl` sends to the embed-URL service:
 * one dashboard ARN per dashboard id, the first id as the initial dashboard,
 * the default namespace and a 60-minute session.
 */
module Embed {
  import opened Wrappers
  import opened Errors
  import opened Text

  const Namespace := "default"
  const SessionLifetimeInMinutes := 60

  datatype EmbedRequest = EmbedRequest(
    awsAccountId: string,
    namespace: string,
    initialDashboardId: string,
    authorizedResourceArns: seq<string>,
    sessionLifetimeInMinutes: int)

  /** The ARN naming dashboard `id` of `account` in `region`. */
  function DashboardArn(region: string, account: string, id: string): string
  {
    "arn:aws:quicksight:" + region + ":" + account + ":dashboard/" + id
  }

  /** The list comprehension building one ARN per dashboard id, in order. */
  function ArnList(region: string, account: string, ids: seq<string>): (arns: seq<string>)
    ensures |arns| == |ids|
    ensures forall i :: 0 <= i < |ids| ==> arns[i] == DashboardArn(region, account, ids[i])
  {
    if |ids| == 0 then []
    else [DashboardArn(region, account, ids[0])] + ArnList(region, account, ids[1..])
  }

  /**
   * The parameters of `generate_embed_url_for_anonymous_user`. Indexing the
   * first id raises IndexError when there is none.
   */
  function BuildRequest(account: string, ids: seq<string>, region: string): (r: Result<EmbedRequest, Fault>)
    ensures r.Success? <==> |ids| > 0
    ensures r.Failure? ==> r.error == IndexOutOfRange
    ensures r.Success? ==>
      && r.value.awsAccountId == account
      && r.value.namespace == "default"
      && r.value.sessionLifetimeInMinutes == 60
      && r.value.initialDashboardId == ids[0]
      && |r.value.authorizedResourceArns| == |ids|
      && forall i :: 0 <= i < |ids| ==>
           r.value.authorizedResourceArns[i] == DashboardArn(region, account, ids[i])
  {
    var arns := ArnList(region, account, ids);
    if |ids| == 0 then Failure(IndexOutOfRange)
    else Success(EmbedRequest(account, Namespace, ids[0], arns, SessionLifetimeInMinutes))
  }

  /**
   * A dashboard ARN splits back at `:` into its six fields, so the account
   * and region can be read back from it when they contain no `:`.
   */
  lemma DashboardArnFields(region: string, account: string, id: string)
    requires ':' !in region && ':' !in account && ':' !in id
    ensures SplitOn(DashboardArn(region, account, id), ":")
         == ["arn", "aws", "quicksight", region, account, "dashboard/" + id]
  {
    var fields := ["arn", "aws", "quicksight", region, account, "dashboard/" + id];
    DashboardArnIsJoin(region, account, id);
    assert ':' !in fields[5] by {
      assert multiset(fields[5]) == multiset("dashboard/") + multiset(id);
    }
    SplitOnJoin(fields, ':');
  }

  lemma DashboardArnIsJoin(region: string, account: string, id: string)
    ensures DashboardArn(region, account, id)
         == Join(["arn", "aws", "quicksight", region, account, "dashboard/" + id], ":")
  {
    var last := "dashboard/" + id;
    JoinCons(account, [last], ":");
    JoinCons(region, [account, last], ":");
    JoinCons("quicksight", [region, account, last], ":");
    JoinCons("aws", ["quicksight", region, account, last], ":");
    JoinCons("arn", ["aws", "quicksight", region, account, last], ":");
  }

  /** The request for dashboards d1 and d2 of account 123456789012 in us-east-1. */
  lemma ExampleRequest()
    ensures BuildRequest("123456789012", ["d1", "d2"], "us-east-1")
         == Success(EmbedRequest("123456789012", "default", "d1",
              ["arn:aws:quicksight:us-east-1:123456789012:dashboard/d1",
               "arn:aws:quicksight:us-east-1:123456789012:dashboard/d2"], 60))
  {
    ExampleArn("d1");
    ExampleArn("d2");
    var ids := ["d1", "d2"];
    var arns := ArnList("us-east-1", "123456789012", ids);
    assert arns[0] == DashboardArn("us-east-1", "123456789012", ids[0]);
    assert arns[1] == DashboardArn("us-east-1", "123456789012", ids[1]);
    assert arns == [arns[0], arns[1]];
    assert "arn:aws:quicksight:us-east-1:123456789012:dashboard/" + "d1"
        == "arn:aws:quicksight:us-east-1:123456789012:dashboard/d1";
    assert "arn:aws:quicksight:us-east-1:123456789012:dashboard/" + "d2"
        == "arn:aws:quicksight:us-east-1:123456789012:dashboard/d2";
  }

  lemma ExampleArn(id: string)
    ensures DashboardArn("us-east-1", "123456789012", id)
         == "arn:aws:quicksight:us-east-1:123456789012:dashboard/" + id
  {
  }
}

=== FILE: errors.dfy ===
/** The exceptions the handler can raise, and the text `str(e)` gives for each. */
module Errors {

  datatype Fault =
    | KeyMissing(key: string)        // KeyError from a dictionary lookup
    | IndexOutOfRange                // IndexError from a list subscript
    | FileMissing(path: string)      // FileNotFoundError from opening a content file
    | ServiceFault(message: string)  // any error raised by the embed-URL service
    | NotAString(key: string)        // TypeError from substituting a non-string value
    | ReplacementError(message: string)  // re.error from a bad escape in a replacement

  /** The exception's message, as the catch-all handler puts it after "Error: ". */
  function Message(f: Fault): string
  {
    match f
    case KeyMissing(k) => "'" + k + "'"
    case IndexOutOfRange => "list index out of range"
    case FileMissing(p) => "[Errno 2] No such file or directory: '" + p + "'"
    case ServiceFault(m) => m
    case NotAString(k) => k + " is not a string"
    case ReplacementError(m) => m
  }
}

=== FILE: handler.dfy ===
/**
 * `lambda_handler`: resolve the mode from the query string, fetch an embed
 * URL when the mode needs one, fill the matching HTML template, and shape
 * the response; any error becomes a single 400 response.
 *
 * The process environment, the content files, the embed-URL service,
 * Python's `str` of a list and its escape processing of `re.sub`
 * replacements are inputs (`Runtime`); json.dumps is left as "the body is
 * the encoding of this JSON value".
 */
module Handler {
  import opened Wrappers
  import opened Errors
  import opened JsonValues
  import opened Text
  import opened Embed
  import opened Settings
  import opened Template

  /** A key of the event: absent (lookup raises KeyError), present but null, or present. */
  datatype Field<+T> = Missing | Null | Present(value: T)

  datatype Event = Event(
    queryStringParameters: Field<map<string, string>>,
    headers: Field<map<string, string>>,
    requestContext: Field<map<string, string>>)

  datatype Mode = Dynamic | Static | GetUrl | UnsupportedValue

  /** The content files; `None` when opening the file fails. */
  datatype Assets = Assets(
    dynamicPage: Option<string>,
    staticPage: Option<string>,
    logoBase64: Option<string>)

  datatype Runtime = Runtime(
    functionArn: string,
    env: map<string, string>,
    assets: Assets,
    service: EmbedRequest -> Result<map<string, Json>, string>,
    listRepr: seq<string> -> string,
    escapes: Escapes)

  datatype Body = Html(text: string) | JsonText(value: Json)

  datatype Response = Response(statusCode: int, headers: map<string, string>, body: Body)

  /** The response together with the requests sent to the embed-URL service. */
  datatype Invocation = Invocation(response: Response, calls: seq<EmbedRequest>)

  datatype Setup = Setup(config: Config, mode: Mode)

  const DynamicPagePath := "content/DynamicSample.html"
  const StaticPagePath := "content/StaticSample.html"
  const LogoPath := "content/Logo.png"
  /** The literal "ApiGatewayUrlIsNotDerivableWhileTestingFromApiGateway", written in pieces. */
  const NotDerivableUrl := "ApiGateway" + "UrlIsNot" + "Derivable" + "While" + "Testing" + "From" + "ApiGateway"

  const HtmlHeaders: map<string, string> := map["Content-Type" := "text/html"]
  const PlainHeaders: map<string, string> :=
    map["Access-Control-Allow-Origin" := "-", "Content-Type" := "text/plain"]

  /** The mode's name as the handler spells it. */
  function ModeName(m: Mode): string
  {
    match m
    case Dynamic => "dynamic"
    case Static => "static"
    case GetUrl => "getUrl"
    case UnsupportedValue => "unsupportedValue"
  }

  /**
   * No query string, or one without `mode`, means dynamic; `mode` selects
   * static or getUrl; any other value is unsupported.
   */
  function ResolveMode(query: Field<map<string, string>>): (r: Result<Mode, Fault>)
    ensures query.Missing? <==> r.Failure?
    ensures r.Failure? ==> r.error == KeyMissing("queryStringParameters")
    ensures query.Null? ==> r == Success(Dynamic)
    ensures query.Present? && "mode" !in query.value ==> r == Success(Dynamic)
    ensures query.Present? && "mode" in query.value ==>
      && (r == Success(Static) <==> query.value["mode"] == "static")
      && (r == Success(GetUrl) <==> query.value["mode"] == "getUrl")
      && (r == Success(UnsupportedValue) <==> query.value["mode"] != "static" && query.value["mode"] != "getUrl")
  {
    match query
    case Missing => Failure(KeyMissing("queryStringParameters"))
    case Null => Success(Dynamic)
    case Present(params) =>
      if "mode" in params then
        if params["mode"] == "static" then Success(Static)
        else if params["mode"] == "getUrl" then Success(GetUrl)
        else Success(UnsupportedValue)
      else Success(Dynamic)
  }

  /** Naming static or getUrl in the query string selects that mode. */
  lemma ModeNameSelects(m: Mode)
    requires m == Static || m == GetUrl
    ensures ResolveMode(Present(map["mode" := ModeName(m)])) == Success(m)
  {
  }

  /** Naming dynamic explicitly does not select it: only static and getUrl are recognised. */
  lemma ExplicitDynamicIsUnsupported()
    ensures ResolveMode(Present(map["mode" := ModeName(Dynamic)])) == Success(UnsupportedValue)
  {
    assert ModeName(Dynamic) != "static" && ModeName(Dynamic) != "getUrl";
  }

  /**
   * The API gateway URL of static mode: the Host header followed by the
   * request path, or a fixed marker when either map is null.
   */
  function ApiGatewayUrl(event: Event): (r: Result<string, Fault>)
    ensures event.headers.Null? ==> r == Success(NotDerivableUrl)
    ensures event.headers.Present? && event.requestContext.Null? ==> r == Success(NotDerivableUrl)
    ensures event.headers.Missing? ==> r == Failure(KeyMissing("headers"))
    ensures event.headers.Present? && event.requestContext.Missing? ==> r == Failure(KeyMissing("requestContext"))
    ensures event.headers.Present? && event.requestContext.Present? ==>
      if "Host" !in event.headers.value then r == Failure(KeyMissing("Host"))
      else if "path" !in event.requestContext.value then r == Failure(KeyMissing("path"))
      else r == Success(event.headers.value["Host"] + event.requestContext.value["path"])
  {
    match event.headers
    case Missing => Failure(KeyMissing("headers"))
    case Null => Success(NotDerivableUrl)
    case Present(headers) =>
      match event.requestContext
      case Missing => Failure(KeyMissing("requestContext"))
      case Null => Success(NotDerivableUrl)
      case Present(context) =>
        if "Host" !in headers then Failure(KeyMissing("Host"))
        else if "path" !in context then Failure(KeyMissing("path"))
        else Success(headers["Host"] + context["path"])
  }

  /**
   * The URL is available exactly when the headers are null, or present with
   * a null request context, or carry a Host header next to a request context
   * with a path; a URL built from the request starts with its Host header.
   */
  lemma ApiGatewayUrlDerivable(event: Event)
    ensures ApiGatewayUrl(event).Success? <==>
      || event.headers.Null?
      || (event.headers.Present? && event.requestContext.Null?)
      || (&& event.headers.Present? && event.requestContext.Present?
          && "Host" in event.headers.value && "path" in event.requestContext.value)
    ensures ApiGatewayUrl(event).Success? && event.headers.Present? && event.requestContext.Present? ==>
      event.headers.value["Host"] <= ApiGatewayUrl(event).value
  {
  }

  /**
   * The two response shapes the handler produces: a 200, or the catch-all
   * 400 with plain-text headers and a JSON string starting with "Error: ".
   */
  predicate WellShaped(resp: Response)
  {
    && (resp.statusCode == 200 || resp.statusCode == 400)
    && (resp.statusCode == 400 ==>
          && resp.headers == PlainHeaders
          && resp.body.JsonText?
          && resp.body.value.JString?
          && "Error: " <= resp.body.value.s)
  }

  /** The catch-all: status 400, plain-text headers, and the JSON string "Error: " + message. */
  function ErrorResponse(f: Fault): (resp: Response)
    ensures WellShaped(resp) && resp.statusCode == 400
  {
    Response(400, PlainHeaders, JsonText(JString("Error: " + Message(f))))
  }

  /** A rendered page as a 200 HTML response, or the error that stopped it. */
  function PageResponse(page: Result<string, Fault>): (resp: Response)
    ensures WellShaped(resp)
    ensures resp.statusCode == 200 <==> page.Success?
    ensures page.Success? ==> resp.headers == HtmlHeaders && resp.body == Html(page.value)
    ensures page.Failure? ==> resp == ErrorResponse(page.error)
  {
    match page
    case Success(html) => Response(200, HtmlHeaders, Html(html))
    case Failure(f) => ErrorResponse(f)
  }

  /** A JSON document as a 200 plain-text response. */
  function JsonResponse(doc: Json): (resp: Response)
    ensures WellShaped(resp) && resp.statusCode == 200
    ensures resp.headers == PlainHeaders && resp.body == JsonText(doc)
  {
    Response(200, PlainHeaders, JsonText(doc))
  }

  /** Everything before dispatch: configuration first, then the mode. */
  function Prepare(event: Event, rt: Runtime): (r: Result<Setup, Fault>)
    ensures LoadConfig(rt.functionArn, rt.env).Failure? ==> r == Failure(LoadConfig(rt.functionArn, rt.env).error)
    ensures LoadConfig(rt.functionArn, rt.env).Success? ==>
      match ResolveMode(event.queryStringParameters)
      case Failure(f) => r == Failure(f)
      case Success(m) => r == Success(Setup(LoadConfig(rt.functionArn, rt.env).value, m))
  {
    var config :- LoadConfig(rt.functionArn, rt.env);
    var mode :- ResolveMode(event.queryStringParameters);
    Success(Setup(config, mode))
  }

  /** `getQuickSightDashboardUrl`: the service's answer and the requests sent. */
  function Fetch(config: Config, rt: Runtime): (r: (Result<map<string, Json>, Fault>, seq<EmbedRequest>))
    ensures |r.1| <= 1
    ensures r.0.Success? ==>
      && BuildRequest(config.accountId, config.dashboardIds, config.region).Success?
      && r.1 == [BuildRequest(config.accountId, config.dashboardIds, config.region).value]
      && rt.service(r.1[0]) == Success(r.0.value)
    ensures |config.dashboardIds| > 0 ==>
      && BuildRequest(config.accountId, config.dashboardIds, config.region).Success?
      && r.1 == [BuildRequest(config.accountId, config.dashboardIds, config.region).value]
    ensures |r.1| == 1 && rt.service(r.1[0]).Failure? ==> r.0 == Failure(ServiceFault(rt.service(r.1[0]).error))
    ensures |r.1| == 1 && rt.service(r.1[0]).Success? ==> r.0 == Success(rt.service(r.1[0]).value)
  {
    match BuildRequest(config.accountId, config.dashboardIds, config.region)
    case Failure(f) => (Failure(f), [])
    case Success(req) =>
      match rt.service(req)
      case Failure(msg) => (Failure(ServiceFault(msg)), [req])
      case Success(answer) => (Success(answer), [req])
  }

  /** `response['EmbedUrl']`, which must be a string to be substituted. */
  function EmbedUrlOf(answer: map<string, Json>): (r: Result<string, Fault>)
    ensures r.Success? <==> "EmbedUrl" in answer && answer["EmbedUrl"].JString?
    ensures "EmbedUrl" !in answer ==> r == Failure(KeyMissing("EmbedUrl"))
    ensures "EmbedUrl" in answer && !answer["EmbedUrl"].JString? ==> r == Failure(NotAString("EmbedUrl"))
    ensures r.Success? ==> r.value == answer["EmbedUrl"].s
  {
    if "EmbedUrl" !in answer then Failure(KeyMissing("EmbedUrl"))
    else if !answer["EmbedUrl"].JString? then Failure(NotAString("EmbedUrl"))
    else Success(answer["EmbedUrl"].s)
  }

  /** `open('content/Logo.png')`, already base64-encoded. */
  function Logo(assets: Assets): (r: Result<string, Fault>)
    ensures r.Success? <==> assets.logoBase64.Some?
    ensures r.Success? ==> r.value == assets.logoBase64.value
    ensures r.Failure? ==> r.error == FileMissing(LogoPath)
  {
    match assets.logoBase64
    case None => Failure(FileMissing(LogoPath))
    case Some(text) => Success(text)
  }

  /**
   * The three substitutions both pages share, expanded in the handler's
   * order: the `str` of the id list, of the name list, then the logo. The
   * first replacement Python's escape processing rejects stops the page.
   */
  function SharedTexts(config: Config, logo: string, rt: Runtime): (r: Result<(string, string, string), Fault>)
    ensures var ids := ExpandReplacement(DashboardIdListToken, rt.listRepr(config.dashboardIds), rt.escapes);
      var names := ExpandReplacement(DashboardNameListToken, rt.listRepr(config.dashboardNames), rt.escapes);
      var logoText := ExpandReplacement(LogoToken, logo, rt.escapes);
      && (r.Success? <==> ids.Success? && names.Success? && logoText.Success?)
      && (ids.Failure? ==> r == Failure(ids.error))
      && (ids.Success? && names.Failure? ==> r == Failure(names.error))
      && (ids.Success? && names.Success? && logoText.Failure? ==> r == Failure(logoText.error))
      && (r.Success? ==> r.value == (ids.value, names.value, logoText.value))
    ensures NoBackslash(rt.listRepr(config.dashboardIds)) && NoBackslash(rt.listRepr(config.dashboardNames))
            && NoBackslash(logo) ==>
      r == Success((rt.listRepr(config.dashboardIds), rt.listRepr(config.dashboardNames), logo))
  {
    var ids :- ExpandReplacement(DashboardIdListToken, rt.listRepr(config.dashboardIds), rt.escapes);
    var names :- ExpandReplacement(DashboardNameListToken, rt.listRepr(config.dashboardNames), rt.escapes);
    var logoText :- ExpandReplacement(LogoToken, logo, rt.escapes);
    Success((ids, names, logoText))
  }

  /**
   * The dynamic page: the logo is read; ids, names and logo are substituted;
   * then `response['EmbedUrl']` is looked up and substituted. Each step's
   * error stops the page, in that order.
   */
  function DynamicPage(page: string, config: Config, answer: map<string, Json>, rt: Runtime): (r: Result<string, Fault>)
    ensures r.Success? <==>
      && rt.assets.logoBase64.Some?
      && SharedTexts(config, rt.assets.logoBase64.value, rt).Success?
      && EmbedUrlOf(answer).Success?
      && ExpandReplacement(EmbedUrlToken, EmbedUrlOf(answer).value, rt.escapes).Success?
    ensures rt.assets.logoBase64.None? ==> r == Failure(FileMissing(LogoPath))
    ensures rt.assets.logoBase64.Some? && SharedTexts(config, rt.assets.logoBase64.value, rt).Failure? ==>
      r == Failure(SharedTexts(config, rt.assets.logoBase64.value, rt).error)
    ensures rt.assets.logoBase64.Some? && SharedTexts(config, rt.assets.logoBase64.value, rt).Success?
            && EmbedUrlOf(answer).Failure? ==>
      r == Failure(EmbedUrlOf(answer).error)
    ensures rt.assets.logoBase64.Some? && SharedTexts(config, rt.assets.logoBase64.value, rt).Success?
            && EmbedUrlOf(answer).Success?
            && ExpandReplacement(EmbedUrlToken, EmbedUrlOf(answer).value, rt.escapes).Failure? ==>
      r == Failure(ExpandReplacement(EmbedUrlToken, EmbedUrlOf(answer).value, rt.escapes).error)
    ensures r.Success? ==>
      var texts := SharedTexts(config, rt.assets.logoBase64.value, rt).value;
      var url := ExpandReplacement(EmbedUrlToken, EmbedUrlOf(answer).value, rt.escapes).value;
      && ValidTokens(DynamicSubstitutions(texts.0, texts.1, texts.2, url))
      && r.value == Render(page, DynamicSubstitutions(texts.0, texts.1, texts.2, url))
  {
    var logo :- Logo(rt.assets);
    var texts :- SharedTexts(config, logo, rt);
    var embedUrl :- EmbedUrlOf(answer);
    var url :- ExpandReplacement(EmbedUrlToken, embedUrl, rt.escapes);
    DynamicSubstitutionsTokens(texts.0, texts.1, texts.2, url);
    Success(Render(page, DynamicSubstitutions(texts.0, texts.1, texts.2, url)))
  }

  /**
   * The static page: the API gateway URL is derived, the logo read, then
   * ids, names, logo and URL substituted. Each step's error stops the page,
   * in that order.
   */
  function StaticPage(page: string, config: Config, event: Event, rt: Runtime): (r: Result<string, Fault>)
    ensures r.Success? <==>
      && ApiGatewayUrl(event).Success?
      && rt.assets.logoBase64.Some?
      && SharedTexts(config, rt.assets.logoBase64.value, rt).Success?
      && ExpandReplacement(ApiGatewayUrlToken, ApiGatewayUrl(event).value, rt.escapes).Success?
    ensures ApiGatewayUrl(event).Failure? ==> r == Failure(ApiGatewayUrl(event).error)
    ensures ApiGatewayUrl(event).Success? && rt.assets.logoBase64.None? ==> r == Failure(FileMissing(LogoPath))
    ensures ApiGatewayUrl(event).Success? && rt.assets.logoBase64.Some?
            && SharedTexts(config, rt.assets.logoBase64.value, rt).Failure? ==>
      r == Failure(SharedTexts(config, rt.assets.logoBase64.value, rt).error)
    ensures ApiGatewayUrl(event).Success? && rt.assets.logoBase64.Some?
            && SharedTexts(config, rt.assets.logoBase64.value, rt).Success?
            && ExpandReplacement(ApiGatewayUrlToken, ApiGatewayUrl(event).value, rt.escapes).Failure? ==>
      r == Failure(ExpandReplacement(ApiGatewayUrlToken, ApiGatewayUrl(event).value, rt.escapes).error)
    ensures r.Success? ==>
      var texts := SharedTexts(config, rt.assets.logoBase64.value, rt).value;
      var url := ExpandReplacement(ApiGatewayUrlToken, ApiGatewayUrl(event).value, rt.escapes).value;
      && ValidTokens(StaticSubstitutions(texts.0, texts.1, texts.2, url))
      && r.value == Render(page, StaticSubstitutions(texts.0, texts.1, texts.2, url))
  {
    var apiGatewayUrl :- ApiGatewayUrl(event);
    var logo :- Logo(rt.assets);
    var texts :- SharedTexts(config, logo, rt);
    var url :- ExpandReplacement(ApiGatewayUrlToken, apiGatewayUrl, rt.escapes);
    StaticSubstitutionsTokens(texts.0, texts.1, texts.2, url);
    Success(Render(page, StaticSubstitutions(texts.0, texts.1, texts.2, url)))
  }

  /**
   * The per-mode branch of the handler, after configuration and mode are
   * known. A missing template, a failed service call or a page that cannot
   * be built each becomes the catch-all for exactly that fault.
   */
  function Dispatch(setup: Setup, event: Event, rt: Runtime): (out: Invocation)
    ensures WellShaped(out.response)
    ensures |out.calls| <= 1
    ensures setup.mode == Dynamic && rt.assets.dynamicPage.None? ==>
      out == Invocation(ErrorResponse(FileMissing(DynamicPagePath)), [])
    ensures setup.mode == Static && rt.assets.staticPage.None? ==>
      out == Invocation(ErrorResponse(FileMissing(StaticPagePath)), [])
    ensures setup.mode == Static && rt.assets.staticPage.Some? ==>
      out == Invocation(PageResponse(StaticPage(rt.assets.staticPage.value, setup.config, event, rt)), [])
    ensures (setup.mode == GetUrl || (setup.mode == Dynamic && rt.assets.dynamicPage.Some?)) ==>
      && out.calls == Fetch(setup.config, rt).1
      && (Fetch(setup.config, rt).0.Failure? ==> out.response == ErrorResponse(Fetch(setup.config, rt).0.error))
    ensures setup.mode == Dynamic && rt.assets.dynamicPage.Some? && Fetch(setup.config, rt).0.Success? ==>
      out.response == PageResponse(DynamicPage(rt.assets.dynamicPage.value, setup.config, Fetch(setup.config, rt).0.value, rt))
    ensures setup.mode == GetUrl && Fetch(setup.config, rt).0.Success? ==>
      out.response == JsonResponse(JObject(Fetch(setup.config, rt).0.value))
    ensures setup.mode == UnsupportedValue ==> out == Invocation(JsonResponse(JObject(map[])), [])
  {
    match setup.mode
    case Dynamic =>
      if rt.assets.dynamicPage.None? then Invocation(ErrorResponse(FileMissing(DynamicPagePath)), [])
      else
        var fetched := Fetch(setup.config, rt);
        var page :=
          match fetched.0
          case Failure(f) => Failure(f)
          case Success(answer) => DynamicPage(rt.assets.dynamicPage.value, setup.config, answer, rt);
        Invocation(PageResponse(page), fetched.1)
    case Static =>
      if rt.assets.staticPage.None? then Invocation(ErrorResponse(FileMissing(StaticPagePath)), [])
      else Invocation(PageResponse(StaticPage(rt.assets.staticPage.value, setup.config, event, rt)), [])
    case GetUrl =>
      var fetched := Fetch(setup.config, rt);
      var response :=
        match fetched.0
        case Failure(f) => ErrorResponse(f)
        case Success(answer) => JsonResponse(JObject(answer));
      Invocation(response, fetched.1)
    case UnsupportedValue =>
      Invocation(JsonResponse(JObject(map[])), [])
  }

  /**
   * The whole handler. Every outcome is a 200 or a 400 response; a 400 is
   * always the catch-all shape; at most one service request is sent, and
   * only in dynamic or getUrl mode.
   */
  function Handle(event: Event, rt: Runtime): (out: Invocation)
    ensures WellShaped(out.response)
    ensures |out.calls| <= 1
    ensures Prepare(event, rt).Failure? ==> out == Invocation(ErrorResponse(Prepare(event, rt).error), [])
    ensures Prepare(event, rt).Success? ==> out == Dispatch(Prepare(event, rt).value, event, rt)
  {
    match Prepare(event, rt)
    case Failure(f) => Invocation(ErrorResponse(f), [])
    case Success(setup) => Dispatch(setup, event, rt)
  }

  /** An ARN with fewer than five `:`-fields ends in the catch-all, before any service call. */
  lemma MalformedFunctionArn(event: Event, rt: Runtime)
    requires multiset(rt.functionArn)[':'] < 4
    ensures Handle(event, rt)
         == Invocation(Response(400, PlainHeaders, JsonText(JString("Error: list index out of range"))), [])
  {
    assert LoadConfig(rt.functionArn, rt.env) == Failure(IndexOutOfRange);
    assert Handle(event, rt) == Invocation(ErrorResponse(IndexOutOfRange), []);
    IndexErrorText();
  }

  /**
   * A missing `DashboardRegion`, with the ARN and both lists in order, ends
   * in the catch-all naming that variable, before any service call.
   */
  lemma MissingRegionReported(event: Event, rt: Runtime)
    requires multiset(rt.functionArn)[':'] >= 4
    requires "DashboardIdList" in rt.env && "DashboardNameList" in rt.env && "DashboardRegion" !in rt.env
    ensures Handle(event, rt)
         == Invocation(Response(400, PlainHeaders, JsonText(JString("Error: '" + "DashboardRegion" + "'"))), [])
  {
    assert AccountId(rt.functionArn).Success?;
    assert LoadConfig(rt.functionArn, rt.env) == Failure(KeyMissing("DashboardRegion"));
    assert Handle(event, rt) == Invocation(ErrorResponse(KeyMissing("DashboardRegion")), []);
    KeyErrorText("DashboardRegion");
  }

  lemma KeyErrorText(key: string)
    ensures ErrorResponse(KeyMissing(key))
         == Response(400, PlainHeaders, JsonText(JString("Error: '" + key + "'")))
  {
    assert "Error: " + ("'" + key + "'") == "Error: '" + key + "'";
  }

  lemma IndexErrorText()
    ensures ErrorResponse(IndexOutOfRange)
         == Response(400, PlainHeaders, JsonText(JString("Error: list index out of range")))
  {
    assert "Error: " + "list index out of range" == "Error: list index out of range";
  }

  /**
   * The embed-URL service is asked exactly in getUrl mode and in dynamic
   * mode once the dynamic template is open, and then with the request built
   * from the configuration; static and unsupported modes never ask it.
   */
  lemma ServiceCalledExactlyInEmbedModes(event: Event, rt: Runtime)
    ensures var out := Handle(event, rt);
      |out.calls| > 0 <==>
        && Prepare(event, rt).Success?
        && (|| Prepare(event, rt).value.mode == GetUrl
            || (Prepare(event, rt).value.mode == Dynamic && rt.assets.dynamicPage.Some?))
    ensures Prepare(event, rt).Success? ==>
      var config := Prepare(event, rt).value.config;
      var out := Handle(event, rt);
      |out.calls| > 0 ==>
        && BuildRequest(config.accountId, config.dashboardIds, config.region).Success?
        && out.calls == [BuildRequest(config.accountId, config.dashboardIds, config.region).value]
  {
    if Prepare(event, rt).Success? {
      var setup := Prepare(event, rt).value;
      assert |setup.config.dashboardIds| > 0;
      var out := Dispatch(setup, event, rt);
      assert Handle(event, rt) == out;
      match setup.mode
      case Dynamic =>
      case Static =>
        assert out.calls == [];
      case GetUrl =>
      case UnsupportedValue =>
        assert out.calls == [];
    }
  }

  /** An unsupported mode answers the untouched empty JSON object and asks no service. */
  lemma UnsupportedModeAnswersEmptyObject(event: Event, rt: Runtime)
    requires Prepare(event, rt).Success? && Prepare(event, rt).value.mode == UnsupportedValue
    ensures Handle(event, rt) == Invocation(Response(200, PlainHeaders, JsonText(JObject(map[]))), [])
  {
  }

  /**
   * Dynamic mode sends the request built from the configuration and answers
   * 200 exactly when the template is there, the service succeeds and the
   * dynamic page can be built; the body is then that page. When the four
   * substituted values hold no backslash the page is the template with the
   * four dynamic tokens replaced by those values themselves.
   */
  lemma DynamicModeAnswersPage(event: Event, rt: Runtime)
    requires Prepare(event, rt).Success? && Prepare(event, rt).value.mode == Dynamic
    ensures var c := Prepare(event, rt).value.config;
      var req := BuildRequest(c.accountId, c.dashboardIds, c.region);
      && req.Success?
      && (Handle(event, rt).response.statusCode == 200 <==>
            && rt.assets.dynamicPage.Some?
            && rt.service(req.value).Success?
            && DynamicPage(rt.assets.dynamicPage.value, c, rt.service(req.value).value, rt).Success?)
      && (&& rt.assets.dynamicPage.Some?
          && rt.service(req.value).Success?
          && DynamicPage(rt.assets.dynamicPage.value, c, rt.service(req.value).value, rt).Success?
          ==>
          Handle(event, rt) == Invocation(
            Response(200, HtmlHeaders, Html(DynamicPage(rt.assets.dynamicPage.value, c, rt.service(req.value).value, rt).value)),
            [req.value]))
    ensures var c := Prepare(event, rt).value.config;
      var req := BuildRequest(c.accountId, c.dashboardIds, c.region);
      && req.Success?
      && rt.assets.dynamicPage.Some?
      && rt.assets.logoBase64.Some?
      && rt.service(req.value).Success?
      && EmbedUrlOf(rt.service(req.value).value).Success?
      && NoBackslash(rt.listRepr(c.dashboardIds))
      && NoBackslash(rt.listRepr(c.dashboardNames))
      && NoBackslash(rt.assets.logoBase64.value)
      && NoBackslash(EmbedUrlOf(rt.service(req.value).value).value)
      ==>
      var subs := DynamicSubstitutions(rt.listRepr(c.dashboardIds), rt.listRepr(c.dashboardNames),
                    rt.assets.logoBase64.value, EmbedUrlOf(rt.service(req.value).value).value);
      && ValidTokens(subs)
      && Handle(event, rt)
         == Invocation(Response(200, HtmlHeaders, Html(Render(rt.assets.dynamicPage.value, subs))), [req.value])
  {
    var setup := Prepare(event, rt).value;
    var c := setup.config;
    assert |c.dashboardIds| > 0;
    var req := BuildRequest(c.accountId, c.dashboardIds, c.region).value;
    assert Handle(event, rt) == Dispatch(setup, event, rt);
    var answer := rt.service(req);
    if rt.assets.logoBase64.Some? && answer.Success? && EmbedUrlOf(answer.value).Success? {
      var logo := rt.assets.logoBase64.value;
      var url := EmbedUrlOf(answer.value).value;
      DynamicSubstitutionsTokens(rt.listRepr(c.dashboardIds), rt.listRepr(c.dashboardNames), logo, url);
    }
  }

  /**
   * Static mode calls no service and answers 200 exactly when the template
   * is there and the static page can be built; the body is then that page.
   * When the four substituted values hold no backslash the page is the
   * template with the four static tokens replaced by those values themselves.
   */
  lemma StaticModeAnswersPage(event: Event, rt: Runtime)
    requires Prepare(event, rt).Success? && Prepare(event, rt).value.mode == Static
    ensures Handle(event, rt).calls == []
    ensures var c := Prepare(event, rt).value.config;
      && (Handle(event, rt).response.statusCode == 200 <==>
            rt.assets.staticPage.Some? && StaticPage(rt.assets.staticPage.value, c, event, rt).Success?)
      && (rt.assets.staticPage.Some? && StaticPage(rt.assets.staticPage.value, c, event, rt).Success? ==>
            Handle(event, rt).response
            == Response(200, HtmlHeaders, Html(StaticPage(rt.assets.staticPage.value, c, event, rt).value)))
    ensures var c := Prepare(event, rt).value.config;
      && rt.assets.staticPage.Some?
      && ApiGatewayUrl(event).Success?
      && rt.assets.logoBase64.Some?
      && NoBackslash(rt.listRepr(c.dashboardIds))
      && NoBackslash(rt.listRepr(c.dashboardNames))
      && NoBackslash(rt.assets.logoBase64.value)
      && NoBackslash(ApiGatewayUrl(event).value)
      ==>
      var subs := StaticSubstitutions(rt.listRepr(c.dashboardIds), rt.listRepr(c.dashboardNames),
                    rt.assets.logoBase64.value, ApiGatewayUrl(event).value);
      && ValidTokens(subs)
      && Handle(event, rt).response == Response(200, HtmlHeaders, Html(Render(rt.assets.staticPage.value, subs)))
  {
    var setup := Prepare(event, rt).value;
    var c := setup.config;
    assert Handle(event, rt) == Dispatch(setup, event, rt);
    if ApiGatewayUrl(event).Success? && rt.assets.logoBase64.Some? {
      StaticSubstitutionsTokens(rt.listRepr(c.dashboardIds), rt.listRepr(c.dashboardNames),
        rt.assets.logoBase64.value, ApiGatewayUrl(event).value);
    }
  }

  /**
   * getUrl mode sends the request built from the configuration and answers
   * 200 exactly when the service succeeds, with the service's answer as a
   * JSON object.
   */
  lemma GetUrlAnswersJson(event: Event, rt: Runtime)
    requires Prepare(event, rt).Success? && Prepare(event, rt).value.mode == GetUrl
    ensures var c := Prepare(event, rt).value.config;
      var req := BuildRequest(c.accountId, c.dashboardIds, c.region);
      && req.Success?
      && Handle(event, rt).calls == [req.value]
      && (Handle(event, rt).response.statusCode == 200 <==> rt.service(req.value).Success?)
      && (rt.service(req.value).Success? ==>
            Handle(event, rt).response == Response(200, PlainHeaders, JsonText(JObject(rt.service(req.value).value))))
  {
    var setup := Prepare(event, rt).value;
    assert |setup.config.dashboardIds| > 0;
    assert Handle(event, rt) == Dispatch(setup, event, rt);
  }

  /** A fault of the embed-URL service becomes the catch-all 400 carrying its message. */
  lemma ServiceFaultReported(event: Event, rt: Runtime)
    requires Prepare(event, rt).Success?
    requires var setup := Prepare(event, rt).value;
      setup.mode == GetUrl || (setup.mode == Dynamic && rt.assets.dynamicPage.Some?)
    requires var c := Prepare(event, rt).value.config;
      rt.service(BuildRequest(c.accountId, c.dashboardIds, c.region).value).Failure?
    ensures var c := Prepare(event, rt).value.config;
      var msg := rt.service(BuildRequest(c.accountId, c.dashboardIds, c.region).value).error;
      Handle(event, rt).response == Response(400, PlainHeaders, JsonText(JString("Error: " + msg)))
  {
  }

  /**
   * In dynamic mode a `<QSApiGatewayUrl>` placeholder of the template
   * survives into the returned page: only the four dynamic tokens are
   * replaced.
   */
  lemma DynamicModeKeepsApiGatewayToken(event: Event, rt: Runtime, a: string, b: string)
    requires Prepare(event, rt).Success? && Prepare(event, rt).value.mode == Dynamic
    requires rt.assets.dynamicPage == Some(a + ApiGatewayUrlToken + b)
    requires Handle(event, rt).response.statusCode == 200
    ensures Handle(event, rt).response.body.Html?
    ensures Occurs(Handle(event, rt).response.body.text, ApiGatewayUrlToken)
  {
    var setup := Prepare(event, rt).value;
    var config := setup.config;
    assert |config.dashboardIds| > 0;
    var fetched := Fetch(config, rt);
    assert fetched.0.Success?;
    var answer := fetched.0.value;
    var page := DynamicPage(a + ApiGatewayUrlToken + b, config, answer, rt);
    assert page.Success?;
    var texts := SharedTexts(config, rt.assets.logoBase64.value, rt).value;
    var url := ExpandReplacement(EmbedUrlToken, EmbedUrlOf(answer).value, rt.escapes).value;
    DynamicKeepsApiGatewayToken(a, b, texts.0, texts.1, texts.2, url);
    var subs := DynamicSubstitutions(texts.0, texts.1, texts.2, url);
    var text := Handle(event, rt).response.body.text;
    assert text == Render(a, subs) + ApiGatewayUrlToken + Render(b, subs);
    assert OccursAt(text, ApiGatewayUrlToken, |Render(a, subs)|);
  }

  /**
   * In static mode a `<QSEmbedUrl>` placeholder of the template survives
   * into the returned page: only the four static tokens are replaced.
   */
  lemma StaticModeKeepsEmbedUrlToken(event: Event, rt: Runtime, a: string, b: string)
    requires Prepare(event, rt).Success? && Prepare(event, rt).value.mode == Static
    requires rt.assets.staticPage == Some(a + EmbedUrlToken + b)
    requires Handle(event, rt).response.statusCode == 200
    ensures Handle(event, rt).response.body.Html?
    ensures Occurs(Handle(event, rt).response.body.text, EmbedUrlToken)
  {
    var config := Prepare(event, rt).value.config;
    var page := StaticPage(a + EmbedUrlToken + b, config, event, rt);
    assert page.Success?;
    var texts := SharedTexts(config, rt.assets.logoBase64.value, rt).value;
    var url := ExpandReplacement(ApiGatewayUrlToken, ApiGatewayUrl(event).value, rt.escapes).value;
    StaticKeepsEmbedUrlToken(a, b, texts.0, texts.1, texts.2, url);
    var subs := StaticSubstitutions(texts.0, texts.1, texts.2, url);
    var text := Handle(event, rt).response.body.text;
    assert text == Render(a, subs) + EmbedUrlToken + Render(b, subs);
    assert OccursAt(text, EmbedUrlToken, |Render(a, subs)|);
  }
}

=== FILE: json.dfy ===
/** JSON documents, as produced by `json.dumps` of a Python value. */
module JsonValues {

  datatype Json =
    | JNull
    | JBool(b: bool)
    | JNumber(n: int)
    | JString(s: string)
    | JArray(items: seq<Json>)
    | JObject(fields: map<string, Json>)
}

=== FILE: settings.dfy ===
/**
 * What the handler reads before it looks at the request: the account id
 * taken from the function's own ARN, and the dashboard ids, names and region
 * taken from the environment.
 */
module Settings {
  import opened Wrappers
  import opened Errors
  import opened Text

  datatype Config = Config(
    accountId: string,
    dashboardIds: seq<string>,
    dashboardNames: seq<string>,
    region: string)

  /**
   * `invoked_function_arn.split(':')[4]`: the fifth `:`-separated field,
   * or IndexError when the ARN has fewer than four colons.
   */
  function AccountId(functionArn: string): (r: Result<string, Fault>)
    ensures r.Success? <==> multiset(functionArn)[':'] >= 4
    ensures r.Failure? ==> r.error == IndexOutOfRange
    ensures r.Success? ==> ':' !in r.value
  {
    var fields := SplitOn(functionArn, ":");
    SplitOnCount(functionArn, ':');
    if |fields| < 5 then Failure(IndexOutOfRange)
    else
      SplitOnPiecesAvoidSeparator(functionArn, ":");
      OccursSingle(fields[4], ':');
      Success(fields[4])
  }

  /** A Lambda function ARN yields the account id it names. */
  lemma AccountIdOfFunctionArn(partition: string, region: string, account: string, name: string)
    requires ':' !in partition && ':' !in region && ':' !in account
    ensures AccountId("arn:" + partition + ":lambda:" + region + ":" + account + ":function:" + name)
         == Success(account)
  {
    var rest := "function:" + name;
    var f3 := account + [':'] + rest;
    var f2 := region + [':'] + f3;
    var f1 := "lambda" + [':'] + f2;
    var f0 := partition + [':'] + f1;
    var arn := "arn" + [':'] + f0;
    assert arn == "arn:" + partition + ":lambda:" + region + ":" + account + ":function:" + name;
    SplitOnLeadingField("arn", ':', f0);
    SplitOnLeadingField(partition, ':', f1);
    SplitOnLeadingField("lambda", ':', f2);
    SplitOnLeadingField(region, ':', f3);
    SplitOnLeadingField(account, ':', rest);
    assert SplitOn(arn, ":")[4] == account;
  }

  /** `os.environ[key]`: the value, or KeyError when the variable is not set. */
  function EnvLookup(env: map<string, string>, key: string): (r: Result<string, Fault>)
    ensures r.Success? <==> key in env
    ensures r.Success? ==> r.value == env[key]
    ensures r.Failure? ==> r.error == KeyMissing(key)
  {
    if key in env then Success(env[key]) else Failure(KeyMissing(key))
  }

  /** `re.sub(' ', '', raw).split(',')`: the dashboard ids with every space removed. */
  function ParseIds(raw: string): (ids: seq<string>)
    ensures |ids| > 0
  {
    SplitOn(ReplaceAll(raw, " ", ""), ",")
  }

  /**
   * The parsed ids contain neither spaces nor commas, and joining them with
   * commas gives back the raw list with its spaces deleted.
   */
  lemma ParseIdsRoundTrip(raw: string)
    ensures var ids := ParseIds(raw);
      && Join(ids, ",") == Without(raw, ' ')
      && forall i :: 0 <= i < |ids| ==> ' ' !in ids[i] && ',' !in ids[i]
  {
    var compact := ReplaceAll(raw, " ", "");
    DeleteCharacter(raw, ' ');
    var ids := SplitOn(compact, ",");
    SplitOnPiecesAvoidSeparator(compact, ",");
    forall i | 0 <= i < |ids|
      ensures ' ' !in ids[i] && ',' !in ids[i]
    {
      OccursSingle(ids[i], ',');
      if ' ' in ids[i] {
        SplitOnPiecesComeFromInput(compact, ",", i, ' ');
        assert false;
      }
    }
  }

  /** `raw.split(',')`: the dashboard names, spaces kept. */
  function ParseNames(raw: string): (names: seq<string>)
    ensures |names| > 0
    ensures Join(names, ",") == raw
    ensures forall i :: 0 <= i < |names| ==> ',' !in names[i]
  {
    var names := SplitOn(raw, ",");
    SplitOnPiecesAvoidSeparator(raw, ",");
    assert forall i :: 0 <= i < |names| ==> !Occurs(names[i], [',']);
    OccursSingleAll(names, ',');
    names
  }

  /**
   * Reads the configuration in the order the handler does, stopping at the
   * first error: it succeeds exactly when the ARN has an account field and
   * all three variables are set.
   */
  function LoadConfig(functionArn: string, env: map<string, string>): (r: Result<Config, Fault>)
    ensures r.Success? <==>
      && AccountId(functionArn).Success?
      && "DashboardIdList" in env && "DashboardNameList" in env && "DashboardRegion" in env
    ensures AccountId(functionArn).Failure? ==> r == Failure(IndexOutOfRange)
    ensures AccountId(functionArn).Success? && "DashboardIdList" !in env ==>
              r == Failure(KeyMissing("DashboardIdList"))
    ensures AccountId(functionArn).Success? && "DashboardIdList" in env && "DashboardNameList" !in env ==>
              r == Failure(KeyMissing("DashboardNameList"))
    ensures AccountId(functionArn).Success? && "DashboardIdList" in env && "DashboardNameList" in env
            && "DashboardRegion" !in env ==>
              r == Failure(KeyMissing("DashboardRegion"))
    ensures r.Success? ==>
      && Success(r.value.accountId) == AccountId(functionArn)
      && r.value.region == env["DashboardRegion"]
      && |r.value.dashboardIds| > 0
      && Join(r.value.dashboardIds, ",") == Without(env["DashboardIdList"], ' ')
      && Join(r.value.dashboardNames, ",") == env["DashboardNameList"]
      && (forall i :: 0 <= i < |r.value.dashboardIds| ==>
            ' ' !in r.value.dashboardIds[i] && ',' !in r.value.dashboardIds[i])
      && (forall i :: 0 <= i < |r.value.dashboardNames| ==> ',' !in r.value.dashboardNames[i])
  {
    var account :- AccountId(functionArn);
    var idList :- EnvLookup(env, "DashboardIdList");
    var nameList :- EnvLookup(env, "DashboardNameList");
    var region :- EnvLookup(env, "DashboardRegion");
    ParseIdsRoundTrip(idList);
    Success(Config(account, ParseIds(idList), ParseNames(nameList), region))
  }
}

=== FILE: template.dfy ===
/**
 * Filling the HTML templates: each placeholder token is replaced, by
 * `re.sub`, with its value, one token after the other.
 */
module Template {
  import opened Wrappers
  import opened Errors
  import opened Text

  const DashboardIdListToken := "<DashboardIdList>"
  const DashboardNameListToken := "<DashboardNameList>"
  const LogoToken := "<LogoFileBase64>"
  const EmbedUrlToken := "<QSEmbedUrl>"
  const ApiGatewayUrlToken := "<QSApiGatewayUrl>"

  /** One `re.sub(token, value, page)` call, with the replacement already expanded. */
  datatype Substitution = Substitution(token: string, value: string)

  /**
   * Python's processing of a replacement string holding a backslash, for a
   * given pattern: the text that is inserted for each match (escapes such as
   * `\\` or `\n` and group references resolved), or the message of the
   * `re.error` it raises.
   */
  type Escapes = (string, string) -> Result<string, string>

  /** A replacement without a backslash is inserted literally by `re.sub`. */
  predicate NoBackslash(s: string)
  {
    '\\' !in s
  }

  /**
   * The text `re.sub(token, value, ...)` inserts for each match: the value
   * itself when it holds no backslash, otherwise what Python's escape
   * processing makes of it, which can raise `re.error` before any match is
   * looked for.
   */
  function ExpandReplacement(token: string, value: string, escapes: Escapes): (r: Result<string, Fault>)
    ensures NoBackslash(value) ==> r == Success(value)
    ensures r.Failure? ==>
      && !NoBackslash(value)
      && escapes(token, value).Failure?
      && r.error == ReplacementError(escapes(token, value).error)
    ensures r.Success? && !NoBackslash(value) ==> escapes(token, value) == Success(r.value)
  {
    if NoBackslash(value) then Success(value)
    else
      match escapes(token, value)
      case Success(text) => Success(text)
      case Failure(message) => Failure(ReplacementError(message))
  }

  /** Every token the substitutions replace is non-empty. */
  predicate ValidTokens(subs: seq<Substitution>)
  {
    forall i :: 0 <= i < |subs| ==> |subs[i].token| > 0
  }

  /** Every token the substitutions replace is a placeholder. */
  predicate PlaceholderTokens(subs: seq<Substitution>)
  {
    forall i :: 0 <= i < |subs| ==> IsPlaceholder(subs[i].token)
  }

  /** The page after applying the substitutions in order. */
  function Render(page: string, subs: seq<Substitution>): string
    requires ValidTokens(subs)
    decreases |subs|
  {
    if |subs| == 0 then page
    else Render(ReplaceAll(page, subs[0].token, subs[0].value), subs[1..])
  }

  /** The four substitutions of dynamic mode: ids, names, logo and embed URL. */
  function DynamicSubstitutions(ids: string, names: string, logo: string, embedUrl: string): seq<Substitution>
  {
    [ Substitution(DashboardIdListToken, ids),
      Substitution(DashboardNameListToken, names),
      Substitution(LogoToken, logo),
      Substitution(EmbedUrlToken, embedUrl) ]
  }

  /** The four substitutions of static mode: ids, names, logo and API gateway URL. */
  function StaticSubstitutions(ids: string, names: string, logo: string, apiGatewayUrl: string): seq<Substitution>
  {
    [ Substitution(DashboardIdListToken, ids),
      Substitution(DashboardNameListToken, names),
      Substitution(LogoToken, logo),
      Substitution(ApiGatewayUrlToken, apiGatewayUrl) ]
  }

  /** The dynamic substitutions name four distinct placeholders. */
  lemma DynamicSubstitutionsTokens(ids: string, names: string, logo: string, embedUrl: string)
    ensures ValidTokens(DynamicSubstitutions(ids, names, logo, embedUrl))
    ensures PlaceholderTokens(DynamicSubstitutions(ids, names, logo, embedUrl))
  {
    TokensArePlaceholders();
  }

  /** The static substitutions name four distinct placeholders. */
  lemma StaticSubstitutionsTokens(ids: string, names: string, logo: string, apiGatewayUrl: string)
    ensures ValidTokens(StaticSubstitutions(ids, names, logo, apiGatewayUrl))
    ensures PlaceholderTokens(StaticSubstitutions(ids, names, logo, apiGatewayUrl))
  {
    TokensArePlaceholders();
  }

  /** All five tokens are placeholders in the sense of `IsPlaceholder`. */
  lemma TokensArePlaceholders()
    ensures IsPlaceholder(DashboardIdListToken)
    ensures IsPlaceholder(DashboardNameListToken)
    ensures IsPlaceholder(LogoToken)
    ensures IsPlaceholder(EmbedUrlToken)
    ensures IsPlaceholder(ApiGatewayUrlToken)
  {
  }

  /**
   * A placeholder that none of the substitutions names passes through
   * rendering verbatim, and the text on either side is rendered on its own.
   */
  lemma {:induction false} RenderKeepsOtherPlaceholder(a: string, u: string, b: string, subs: seq<Substitution>)
    requires ValidTokens(subs) && PlaceholderTokens(subs)
    requires IsPlaceholder(u)
    requires forall i :: 0 <= i < |subs| ==> subs[i].token != u
    ensures Render(a + u + b, subs) == Render(a, subs) + u + Render(b, subs)
    decreases |subs|
  {
    if |subs| > 0 {
      var t := subs[0].token;
      var r := subs[0].value;
      ReplaceAllKeepsOtherPlaceholder(a, u, b, t, r);
      RenderKeepsOtherPlaceholder(ReplaceAll(a, t, r), u, ReplaceAll(b, t, r), subs[1..]);
    }
  }

  /** Text without any `<` is returned unchanged: there is no placeholder in it. */
  lemma {:induction false} RenderPlainText(page: string, subs: seq<Substitution>)
    requires ValidTokens(subs) && PlaceholderTokens(subs)
    requires '<' !in page
    ensures Render(page, subs) == page
    decreases |subs|
  {
    if |subs| > 0 {
      var t := subs[0].token;
      assert forall i :: !OccursAt(page, t, i);
      ReplaceAllAbsent(page, t, subs[0].value);
      RenderPlainText(page, subs[1..]);
    }
  }

  /**
   * The placeholder of substitution `k`, alone in otherwise `<`-free text,
   * becomes that substitution's value when its token is not named earlier
   * and its value holds no `<`.
   */
  lemma {:induction false} RenderFillsPlaceholder(a: string, b: string, subs: seq<Substitution>, k: int)
    requires ValidTokens(subs) && PlaceholderTokens(subs)
    requires 0 <= k < |subs|
    requires forall j :: 0 <= j < k ==> subs[j].token != subs[k].token
    requires '<' !in a && '<' !in b && '<' !in subs[k].value
    ensures Render(a + subs[k].token + b, subs) == a + subs[k].value + b
    decreases k
  {
    var t := subs[0].token;
    var r := subs[0].value;
    if k == 0 {
      ReplaceAllPlainAround(a, t, b, r);
      RenderPlainText(a + r + b, subs[1..]);
    } else {
      var u := subs[k].token;
      ReplaceAllKeepsOtherPlaceholder(a, u, b, t, r);
      AbsentFromPlainText(a, t);
      AbsentFromPlainText(b, t);
      ReplaceAllAbsent(a, t, r);
      ReplaceAllAbsent(b, t, r);
      RenderFillsPlaceholder(a, b, subs[1..], k - 1);
    }
  }

  /**
   * Each dynamic placeholder, alone in `<`-free text, becomes its own value:
   * ids, names, logo and embed URL, in that pairing.
   */
  lemma DynamicFillsPlaceholders(a: string, b: string, ids: string, names: string, logo: string, embedUrl: string)
    requires '<' !in a && '<' !in b
    ensures var subs := DynamicSubstitutions(ids, names, logo, embedUrl);
      && ValidTokens(subs)
      && ('<' !in ids ==> Render(a + DashboardIdListToken + b, subs) == a + ids + b)
      && ('<' !in names ==> Render(a + DashboardNameListToken + b, subs) == a + names + b)
      && ('<' !in logo ==> Render(a + LogoToken + b, subs) == a + logo + b)
      && ('<' !in embedUrl ==> Render(a + EmbedUrlToken + b, subs) == a + embedUrl + b)
  {
    var subs := DynamicSubstitutions(ids, names, logo, embedUrl);
    DynamicSubstitutionsTokens(ids, names, logo, embedUrl);
    if '<' !in ids { RenderFillsPlaceholder(a, b, subs, 0); }
    if '<' !in names { RenderFillsPlaceholder(a, b, subs, 1); }
    if '<' !in logo { RenderFillsPlaceholder(a, b, subs, 2); }
    if '<' !in embedUrl { RenderFillsPlaceholder(a, b, subs, 3); }
  }

  /**
   * Each static placeholder, alone in `<`-free text, becomes its own value:
   * ids, names, logo and API gateway URL, in that pairing.
   */
  lemma StaticFillsPlaceholders(a: string, b: string, ids: string, names: string, logo: string, apiGatewayUrl: string)
    requires '<' !in a && '<' !in b
    ensures var subs := StaticSubstitutions(ids, names, logo, apiGatewayUrl);
      && ValidTokens(subs)
      && ('<' !in ids ==> Render(a + DashboardIdListToken + b, subs) == a + ids + b)
      && ('<' !in names ==> Render(a + DashboardNameListToken + b, subs) == a + names + b)
      && ('<' !in logo ==> Render(a + LogoToken + b, subs) == a + logo + b)
      && ('<' !in apiGatewayUrl ==> Render(a + ApiGatewayUrlToken + b, subs) == a + apiGatewayUrl + b)
  {
    var subs := StaticSubstitutions(ids, names, logo, apiGatewayUrl);
    StaticSubstitutionsTokens(ids, names, logo, apiGatewayUrl);
    if '<' !in ids { RenderFillsPlaceholder(a, b, subs, 0); }
    if '<' !in names { RenderFillsPlaceholder(a, b, subs, 1); }
    if '<' !in logo { RenderFillsPlaceholder(a, b, subs, 2); }
    if '<' !in apiGatewayUrl { RenderFillsPlaceholder(a, b, subs, 3); }
  }

  /** Dynamic mode never touches the API gateway URL placeholder. */
  lemma DynamicKeepsApiGatewayToken(a: string, b: string, ids: string, names: string, logo: string, embedUrl: string)
    ensures ValidTokens(DynamicSubstitutions(ids, names, logo, embedUrl))
    ensures var subs := DynamicSubstitutions(ids, names, logo, embedUrl);
      Render(a + ApiGatewayUrlToken + b, subs) == Render(a, subs) + ApiGatewayUrlToken + Render(b, subs)
  {
    TokensArePlaceholders();
    DynamicSubstitutionsTokens(ids, names, logo, embedUrl);
    RenderKeepsOtherPlaceholder(a, ApiGatewayUrlToken, b, DynamicSubstitutions(ids, names, logo, embedUrl));
  }

  /** Static mode never touches the embed URL placeholder. */
  lemma StaticKeepsEmbedUrlToken(a: string, b: string, ids: string, names: string, logo: string, apiGatewayUrl: string)
    ensures ValidTokens(StaticSubstitutions(ids, names, logo, apiGatewayUrl))
    ensures var subs := StaticSubstitutions(ids, names, logo, apiGatewayUrl);
      Render(a + EmbedUrlToken + b, subs) == Render(a, subs) + EmbedUrlToken + Render(b, subs)
  {
    TokensArePlaceholders();
    StaticSubstitutionsTokens(ids, names, logo, apiGatewayUrl);
    RenderKeepsOtherPlaceholder(a, EmbedUrlToken, b, StaticSubstitutions(ids, names, logo, apiGatewayUrl));
  }
}

=== FILE: text.dfy ===
/**
 * String operations the handler relies on: Python's `str.split` with a
 * literal separator, `sep.join`, and `re.sub` with a literal pattern, which
 * replaces the leftmost non-overlapping occurrences of the pattern.
 */
module Text {

  /** `t` occurs in `s` starting at index `i`. */
  predicate OccursAt(s: string, t: string, i: int)
  {
    0 <= i && i + |t| <= |s| && s[i..i + |t|] == t
  }

  /** `t` occurs somewhere in `s`. */
  predicate Occurs(s: string, t: string)
  {
    exists i | 0 <= i <= |s| :: OccursAt(s, t, i)
  }

  /** `sep.join(parts)`: the parts in order with `sep` between neighbours. */
  function Join(parts: seq<string>, sep: string): string
  {
    if |parts| == 0 then ""
    else if |parts| == 1 then parts[0]
    else parts[0] + sep + Join(parts[1..], sep)
  }

  /**
   * `s.split(sep)`: the pieces of `s` between the leftmost non-overlapping
   * occurrences of `sep`. There is always at least one piece, and gluing the
   * pieces back together with `sep` gives `s`.
   */
  function SplitOn(s: string, sep: string): (parts: seq<string>)
    requires |sep| > 0
    ensures |parts| > 0
    ensures Join(parts, sep) == s
    decreases |s|
  {
    if |s| < |sep| then [s]
    else if s[..|sep|] == sep then
      var rest := SplitOn(s[|sep|..], sep);
      assert s == sep + s[|sep|..];
      assert ([""] + rest)[1..] == rest;
      [""] + rest
    else
      var rest := SplitOn(s[1..], sep);
      assert rest == [rest[0]] + rest[1..];
      JoinConsChar(s[0], rest[0], rest[1..], sep);
      assert s == [s[0]] + s[1..];
      [[s[0]] + rest[0]] + rest[1..]
  }

  /**
   * `re.sub(t, r, s)` for a pattern `t` without metacharacters and a
   * replacement `r` without escapes: scanning left to right, each occurrence
   * of `t` is replaced by `r` and scanning resumes after it.
   */
  function ReplaceAll(s: string, t: string, r: string): string
    requires |t| > 0
    decreases |s|
  {
    if |s| < |t| then s
    else if s[..|t|] == t then r + ReplaceAll(s[|t|..], t, r)
    else [s[0]] + ReplaceAll(s[1..], t, r)
  }

  /** `s` with every `c` deleted. */
  function Without(s: string, c: char): (r: string)
    ensures c !in r
    ensures multiset(r) == multiset(s)[c := 0]
  {
    if |s| == 0 then ""
    else
      assert s == [s[0]] + s[1..];
      (if s[0] == c then "" else [s[0]]) + Without(s[1..], c)
  }

  /** A template placeholder: `<` name `>`, with no angle bracket inside the name. */
  predicate IsPlaceholder(t: string)
  {
    && |t| >= 2
    && t[0] == '<'
    && t[|t| - 1] == '>'
    && forall i :: 0 < i < |t| - 1 ==> t[i] != '<' && t[i] != '>'
  }

  // ---------------------------------------------------------------- Join

  /** The first part is a prefix of the joined string. */
  lemma {:induction false} JoinStartsWithHead(parts: seq<string>, sep: string)
    requires |parts| > 0
    ensures parts[0] <= Join(parts, sep)
  {
  }

  /** Every character of every part appears in the joined string. */
  lemma {:induction false} JoinKeepsCharacters(parts: seq<string>, sep: string, i: int, c: char)
    requires 0 <= i < |parts|
    requires c in parts[i]
    ensures c in Join(parts, sep)
    decreases |parts|
  {
    if i > 0 {
      JoinKeepsCharacters(parts[1..], sep, i - 1, c);
    }
  }

  /** Joining a part in front of further parts puts the separator after it. */
  lemma JoinCons(p: string, ps: seq<string>, sep: string)
    requires |ps| > 0
    ensures Join([p] + ps, sep) == p + sep + Join(ps, sep)
  {
    assert ([p] + ps)[1..] == ps;
  }

  /** Prepending a character to the first part prepends it to the joined string. */
  lemma JoinConsChar(c: char, p: string, ps: seq<string>, sep: string)
    ensures Join([[c] + p] + ps, sep) == [c] + Join([p] + ps, sep)
  {
    if |ps| > 0 {
      assert ([[c] + p] + ps)[1..] == ps;
      assert ([p] + ps)[1..] == ps;
    }
  }

  // ---------------------------------------------------------------- SplitOn

  /** No piece returned by `SplitOn` contains the separator. */
  lemma {:induction false} SplitOnPiecesAvoidSeparator(s: string, sep: string)
    requires |sep| > 0
    ensures forall i :: 0 <= i < |SplitOn(s, sep)| ==> !Occurs(SplitOn(s, sep)[i], sep)
    decreases |s|
  {
    var parts := SplitOn(s, sep);
    if |s| < |sep| {
      assert parts == [s];
      forall k | OccursAt(s, sep, k)
        ensures false
      {
      }
    } else if s[..|sep|] == sep {
      SplitOnPiecesAvoidSeparator(s[|sep|..], sep);
      var rest := SplitOn(s[|sep|..], sep);
      assert parts == [""] + rest;
      assert forall k :: !OccursAt("", sep, k);
      forall i | 0 <= i < |parts|
        ensures !Occurs(parts[i], sep)
      {
        if i > 0 {
          assert parts[i] == rest[i - 1];
        }
      }
    } else {
      SplitOnPiecesAvoidSeparator(s[1..], sep);
      var rest := SplitOn(s[1..], sep);
      var p := [s[0]] + rest[0];
      assert parts == [p] + rest[1..];
      JoinStartsWithHead(parts, sep);
      assert p <= s;
      forall k | OccursAt(p, sep, k)
        ensures false
      {
        if k > 0 {
          assert rest[0][k - 1..k - 1 + |sep|] == p[k..k + |sep|];
          assert OccursAt(rest[0], sep, k - 1);
        }
      }
      forall i | 0 <= i < |parts|
        ensures !Occurs(parts[i], sep)
      {
        if i > 0 {
          assert parts[i] == rest[i];
        }
      }
    }
  }

  /** A single-character separator occurs exactly where the character does. */
  lemma OccursSingle(s: string, c: char)
    ensures Occurs(s, [c]) <==> c in s
  {
    if c in s {
      var i :| 0 <= i < |s| && s[i] == c;
      assert s[i..i + 1] == [c];
      assert OccursAt(s, [c], i);
    }
    if Occurs(s, [c]) {
      var i :| 0 <= i <= |s| && OccursAt(s, [c], i);
      assert s[i..i + 1] == [c];
      assert s[i] == c;
    }
  }

  /** `OccursSingle` for every string of a sequence. */
  lemma OccursSingleAll(parts: seq<string>, c: char)
    requires forall i :: 0 <= i < |parts| ==> !Occurs(parts[i], [c])
    ensures forall i :: 0 <= i < |parts| ==> c !in parts[i]
  {
    forall i | 0 <= i < |parts|
      ensures c !in parts[i]
    {
      OccursSingle(parts[i], c);
    }
  }

  /** Every character of a piece of `SplitOn(s, sep)` is a character of `s`. */
  lemma SplitOnPiecesComeFromInput(s: string, sep: string, i: int, c: char)
    requires |sep| > 0
    requires 0 <= i < |SplitOn(s, sep)|
    requires c in SplitOn(s, sep)[i]
    ensures c in s
  {
    JoinKeepsCharacters(SplitOn(s, sep), sep, i, c);
  }

  /** Splitting a string free of the separator character yields the string itself. */
  lemma {:induction false} SplitOnWithoutSeparator(s: string, c: char)
    requires c !in s
    ensures SplitOn(s, [c]) == [s]
    decreases |s|
  {
    if |s| >= 1 {
      assert s[..1] != [c] by { assert s[0] in s; }
      SplitOnWithoutSeparator(s[1..], c);
      assert [s[0]] + s[1..] == s;
    }
  }

  /**
   * A string that starts with a separator-free field followed by the
   * separator character splits into that field followed by the pieces of the
   * remainder.
   */
  lemma {:induction false} SplitOnLeadingField(a: string, c: char, b: string)
    requires c !in a
    ensures SplitOn(a + [c] + b, [c]) == [a] + SplitOn(b, [c])
    decreases |a|
  {
    var s := a + [c] + b;
    if |a| == 0 {
      assert s[..1] == [c];
      assert s[1..] == b;
    } else {
      assert s[..1] != [c] by { assert s[0] == a[0] && a[0] in a; }
      assert s[1..] == a[1..] + [c] + b;
      SplitOnLeadingField(a[1..], c, b);
      assert [a[0]] + a[1..] == a;
    }
  }

  /**
   * Splitting undoes joining: parts that do not contain the separator
   * character are recovered from their join.
   */
  lemma {:induction false} SplitOnJoin(parts: seq<string>, c: char)
    requires |parts| > 0
    requires forall i :: 0 <= i < |parts| ==> c !in parts[i]
    ensures SplitOn(Join(parts, [c]), [c]) == parts
    decreases |parts|
  {
    if |parts| == 1 {
      SplitOnWithoutSeparator(parts[0], c);
    } else {
      SplitOnJoin(parts[1..], c);
      SplitOnLeadingField(parts[0], c, Join(parts[1..], [c]));
    }
  }

  /** Splitting at a character gives one more piece than there are occurrences of it. */
  lemma {:induction false} SplitOnCount(s: string, c: char)
    ensures |SplitOn(s, [c])| == multiset(s)[c] + 1
    decreases |s|
  {
    if |s| >= 1 {
      assert s == [s[0]] + s[1..];
      SplitOnCount(s[1..], c);
      if s[0] == c {
        assert s[..1] == [c];
      } else {
        assert s[..1] != [c];
      }
    }
  }

  // ---------------------------------------------------------------- ReplaceAll

  /**
   * The replacement glues the separator-free pieces of `SplitOn(s, t)` with
   * `r` instead of `t`: every occurrence found by the left-to-right scan is
   * replaced, and nothing between occurrences changes.
   */
  lemma {:induction false} ReplaceAllGluesPieces(s: string, t: string, r: string)
    requires |t| > 0
    ensures ReplaceAll(s, t, r) == Join(SplitOn(s, t), r)
    decreases |s|
  {
    if |s| < |t| {
    } else if s[..|t|] == t {
      ReplaceAllGluesPieces(s[|t|..], t, r);
      var rest := SplitOn(s[|t|..], t);
      assert ([""] + rest)[1..] == rest;
    } else {
      ReplaceAllGluesPieces(s[1..], t, r);
      var rest := SplitOn(s[1..], t);
      JoinConsChar(s[0], rest[0], rest[1..], r);
      assert [rest[0]] + rest[1..] == rest;
    }
  }

  /** `re.sub(t, r, s)` leaves `s` unchanged when `t` does not occur in it. */
  lemma {:induction false} ReplaceAllAbsent(s: string, t: string, r: string)
    requires |t| > 0
    requires !Occurs(s, t)
    ensures ReplaceAll(s, t, r) == s
    decreases |s|
  {
    if |s| >= |t| {
      assert !OccursAt(s, t, 0);
      forall k | OccursAt(s[1..], t, k)
        ensures false
      {
        assert s[1..][k..k + |t|] == s[k + 1..k + 1 + |t|];
        assert OccursAt(s, t, k + 1);
      }
      ReplaceAllAbsent(s[1..], t, r);
      assert [s[0]] + s[1..] == s;
    }
  }

  /** Deleting a single character with `re.sub` is `Without`. */
  lemma {:induction false} DeleteCharacter(s: string, c: char)
    ensures ReplaceAll(s, [c], "") == Without(s, c)
    decreases |s|
  {
    if |s| >= 1 {
      DeleteCharacter(s[1..], c);
      var rest := ReplaceAll(s[1..], [c], "");
      if s[0] == c {
        assert s[..1] == [c];
        assert ReplaceAll(s, [c], "") == "" + rest;
      } else {
        assert s[..1] != [c];
        assert ReplaceAll(s, [c], "") == [s[0]] + rest;
      }
    }
  }

  /**
   * A cut between `a` and `b` that no occurrence of a placeholder can
   * straddle: `b` starts with `<` or `a` ends with `>`.
   */
  predicate CleanCut(a: string, b: string)
  {
    |a| == 0 || |b| == 0 || b[0] == '<' || a[|a| - 1] == '>'
  }

  /** Inside a placeholder no `<` follows and no `>` precedes a position. */
  lemma PlaceholderHasNoInnerCut(s: string, t: string, k: int)
    requires IsPlaceholder(t)
    requires |t| <= |s| && s[..|t|] == t
    requires 0 < k < |t|
    ensures s[k] != '<' && s[k - 1] != '>'
  {
    assert s[k] == t[k] && s[k - 1] == t[k - 1];
  }

  /** A placeholder at the start of `a + b` ends before a clean cut. */
  lemma PlaceholderPrefixFitsCut(a: string, b: string, t: string)
    requires IsPlaceholder(t)
    requires CleanCut(a, b) && |a| > 0 && |b| > 0
    requires |t| <= |a + b| && (a + b)[..|t|] == t
    ensures |t| <= |a|
  {
    if |a| < |t| {
      PlaceholderHasNoInnerCut(a + b, t, |a|);
      assert false;
    }
  }

  /** Replacing a placeholder distributes over a clean cut. */
  lemma {:induction false} ReplaceAllAtCleanCut(a: string, b: string, t: string, r: string)
    requires IsPlaceholder(t)
    requires CleanCut(a, b)
    ensures ReplaceAll(a + b, t, r) == ReplaceAll(a, t, r) + ReplaceAll(b, t, r)
    decreases |a|
  {
    var s := a + b;
    if |a| == 0 {
      assert s == b;
    } else if |b| == 0 {
      assert s == a;
    } else if |s| < |t| {
    } else if s[..|t|] == t {
      PlaceholderPrefixFitsCut(a, b, t);
      assert a[..|t|] == t;
      assert s[|t|..] == a[|t|..] + b;
      ReplaceAllAtCleanCut(a[|t|..], b, t, r);
    } else {
      assert s[1..] == a[1..] + b;
      ReplaceAllAtCleanCut(a[1..], b, t, r);
      if |a| >= |t| {
        assert a[..|t|] == s[..|t|];
      }
    }
  }

  /** A token starting with `<` does not occur in text without `<`. */
  lemma AbsentFromPlainText(s: string, t: string)
    requires |t| > 0 && t[0] == '<' && '<' !in s
    ensures !Occurs(s, t)
  {
    forall i | 0 <= i <= |s| && OccursAt(s, t, i)
      ensures false
    {
    }
  }

  /**
   * The single occurrence of a placeholder, in text that has no other `<`,
   * is replaced and nothing else changes.
   */
  lemma ReplaceAllPlainAround(a: string, t: string, b: string, r: string)
    requires IsPlaceholder(t)
    requires '<' !in a && '<' !in b
    ensures ReplaceAll(a + t + b, t, r) == a + r + b
  {
    assert a + t + b == a + (t + b);
    ReplaceAllAtCleanCut(a, t + b, t, r);
    ReplaceAllAtCleanCut(t, b, t, r);
    AbsentFromPlainText(a, t);
    AbsentFromPlainText(b, t);
    ReplaceAllAbsent(a, t, r);
    ReplaceAllAbsent(b, t, r);
    assert t[..|t|] == t && t[|t|..] == [];
  }

  /** A placeholder does not occur inside a different placeholder. */
  lemma PlaceholdersDoNotNest(u: string, t: string)
    requires IsPlaceholder(t) && IsPlaceholder(u) && t != u
    ensures !Occurs(u, t)
  {
    forall i | OccursAt(u, t, i)
      ensures false
    {
    }
  }

  /**
   * Replacing placeholder `t` never touches an occurrence of a different
   * placeholder `u`: the text around it is rewritten independently and `u`
   * itself survives verbatim.
   */
  lemma ReplaceAllKeepsOtherPlaceholder(a: string, u: string, b: string, t: string, r: string)
    requires IsPlaceholder(t) && IsPlaceholder(u) && t != u
    ensures ReplaceAll(a + u + b, t, r) == ReplaceAll(a, t, r) + u + ReplaceAll(b, t, r)
  {
    assert a + u + b == a + (u + b);
    ReplaceAllAtCleanCut(a, u + b, t, r);
    ReplaceAllAtCleanCut(u, b, t, r);
    PlaceholdersDoNotNest(u, t);
    ReplaceAllAbsent(u, t, r);
  }
}

=== FILE: wrappers.dfy ===
/** Failure-compatible datatypes: the handler's exceptions become `Failure` values. */
module Wrappers {

  /** A value that may be absent, as a file that may not exist. */
  datatype Option<+T> = None | Some(value: T)

  /** The outcome of a step that either yields a value or raises an error. */
  datatype Result<+R, +E> = Success(value: R) | Failure(error: E) {

    predicate IsFailure() {
      Failure?
    }

    function PropagateFailure<U>(): Result<U, E>
      requires Failure?
    {
      Failure(error)
    }

    function Extract(): R
      requires Success?
    {
      value
    }
  }
}
